=== FILE: README.md ===
# Crawl frontier of the screenshot service

The screenshot service crawls one site and screenshots its pages. Its crawl
frontier is the class `CrawlerQueue`, which exists twice, almost word for
word: `crawler.js` (the copy the server imports) and `lib/crawler.js`. This
project models it in Dafny and proves its properties. The class holds:

- a FIFO `queue` of `{url, depth}` entries;
- the sets `visitedUrls`, `processing` (URLs in flight) and
  `screenshotsTaken`;
- the configuration `maxConcurrent`, `maxDepth`, `baseUrl` and `domain`.

Every URL passes through two helpers:

- `normalizeUrl` resolves the URL against `baseUrl`, clears the fragment,
  strips one trailing `/` from `href`, and drops a leading `www.` from the
  host;
- `isValidUrl` applies an extension denylist and an exact hostname match.

The model is functional. The state is an immutable `CrawlerQueue` record,
and every method is a pure function from the old state to the new one.

URL parsing comes from the WHATWG URL Standard. The basic URL parser (section
4.4 of the URL Standard) stays abstract: every operation receives it as a
`Parser` value, a function from an input and an optional base record to an
optional record. What the crawler does with the parsed record is modelled
explicitly:

- the `new URL(url, base)` constructor, which parses the base first;
- the `href` getter, i.e. the URL serializer of section 4.5 (including the
  "/." rule for host-less paths that start with "//");
- the `hostname` and `pathname` getters;
- the `hash = ""` setter of section 6.1, which also strips the trailing
  spaces of an opaque path when there is no query;
- the `hostname` setter, for the values `normalizeUrl` gives it, including
  the `file` rule that stores "localhost" as the empty host.

Files:

- `wrappers.dfy`: `Option` and `Result`.
- `strings.dfy`: prefix, suffix and ASCII lower-case helpers.
- `url.dfy`: the URL record, `href` and the setters.
- `canon.dfy`: `normalizeUrl`, `isValidUrl`, the denylist.
- `frontier.dfy`: the `CrawlerQueue` state and its methods.
- `feed.dfy`: the rule by which the crawl loop feeds a page's links back
  into the frontier.
- `scenarios.dfy`: concrete runs over fixed parser results.

In three places the code does not do what its own comments ("Remove trailing
slash for consistency", "Remove 'www.' from hostname for consistency")
suggest, and the model follows the code in each:

- **A `www.` host keeps its trailing slash.** The trailing-slash strip edits
  only a local string, and the `www.` branch then replaces that string with a
  fresh `href`. So "https://www.a.com/x/" becomes "https://a.com/x/", while
  "https://a.com/x/" becomes "https://a.com/x". URLs that differ only by a
  trailing slash or by `www.` therefore do not always canonicalise alike, and
  `normalizeUrl` is not idempotent.
- **The stored `domain` is the raw hostname of the seed.** It is kept with
  its `www.`, and `isValidUrl` compares hostnames exactly. A crawl seeded on
  a `www.` host rejects every normalised link on that same host, because
  normalising cuts the `www.` away, whenever that host is longer than the
  four characters "www." itself. Some links still pass: a link on
  "www.www.a.com" normalises onto "www.a.com"; a link that does not parse
  normalises to "", which resolves to the seed itself; and on the bare host
  "www." of a special scheme the `hostname` setter refuses the empty value,
  so the host, and the link, stay as they were.
- **An in-flight URL can stay in flight for good.** `markAsProcessed`
  re-normalises its argument. An in-flight URL that is not its own
  normalisation is never removed from `processing`.

## Model

| member | source | states |
|---|---|---|
| WhatwgUrl.NewUrl | crawler.js:25 | `new URL(url, base)` fails whenever the base string does not parse, and without a base it is the parser applied to the input alone |
| WhatwgUrl.Hostname | crawler.js:30 | the hostname is "" without a host, and otherwise exactly the text `href` shows between the credentials and the port |
| WhatwgUrl.Pathname | crawler.js:27 | the pathname is the path `href` shows after the host, possibly behind the "/." that keeps a host-less "//" path from reading as an authority |
| WhatwgUrl.Href | crawler.js:42 | the serialised URL always starts with the scheme followed by ":" |
| WhatwgUrl.ClearHash | crawler.js:40 | after `hash = ""` the fragment is null and nothing else changes, except that an opaque path without a query loses its trailing spaces (only spaces, and all of them) |
| WhatwgUrl.SetHostname | crawler.js:48 | the `hostname` setter keeps a host and changes nothing but the host; an accepted value is stored as is, except that a `file` URL stores "localhost" as the empty host; only the empty value can be refused, which leaves the URL unchanged |
| WhatwgUrl.HrefAfterSetHostname | crawler.js:48-49 | after the `hostname` setter, `href` differs from the old one only in the host part |
| Canon.MatchesDenylist | crawler.js:27 | the scan of the extension alternation matches exactly when the lower-cased pathname ends with "." and a denylisted extension |
| Canon.DeniedExtensionIgnoresCase | crawler.js:27 | the extension test is case-insensitive: a path and its lower-case form are judged alike |
| Canon.NormalForm | crawler.js:39-51 | what `normalizeUrl` makes of a URL that parsed is never empty, so "" always means a parse failure |
| Canon.Normalize | crawler.js:36-55 | `normalizeUrl` returns "" exactly when `new URL(url, baseUrl)` throws |
| Canon.IsValidUrl | crawler.js:23-34 | a valid URL parses, has no denylisted extension and has hostname `domain` |
| Canon.IsValidUrlConjunctive | lib/crawler.js:23-34 | the one-conjunction form of `isValidUrl` answers as the early-return form of `crawler.js` does, on every input |
| Canon.IsValidUrlForms | lib/crawler.js:23-34 | the early-return form of `crawler.js` and the conjunction of `lib/crawler.js` agree on every input; false on a parse failure, and otherwise true iff there is no denylisted extension and the hostname equals `domain` |
| Canon.NormalizePlainHost | crawler.js:39-45 | without `www.`, the result is `href` without its fragment, with exactly one final "/" removed when there is one |
| Canon.NormalFormPlain | crawler.js:39-45 | the same statement for an already parsed record |
| Canon.NormalFormWwwKeepsSlash | crawler.js:46-50 | with a `www.` host, a trailing "/" of the fragment-free `href` survives |
| Canon.NormalFormWww | crawler.js:46-50 | with a `www.` host longer than four characters, the result is the fragment-free `href` with `www.` cut out of the host (a `file` URL's "www.localhost" giving the empty host) |
| Canon.NormalizeWwwHost | crawler.js:46-50 | with a `www.` host, the result is `href` without fragment and with `www.` cut out of the host (a `file` URL's "www.localhost" giving the empty host; the bare host "www." of a special scheme is refused by the setter), and a trailing "/" stays |
| Canon.NormalizeIgnoresFragment | crawler.js:39-40 | URLs that parse to records differing only in the fragment normalise alike |
| Canon.NormalFormIgnoresTrailingSlash | crawler.js:41-45 | on a non-`www.` host with no query, when the path is non-empty and does not already end in "/", one extra "/" on the path does not change the normal form |
| Canon.NormalizeIgnoresTrailingSlash | crawler.js:41-45 | the same, for the raw strings that parse to those records |
| Canon.NormalFormWwwTrailingSlash | crawler.js:42-50 | on a `www.` host longer than four characters, with no query, one extra "/" on the path is one extra "/" on the normal form |
| Canon.WwwTrailingSlashNotIgnored | crawler.js:42-50 | on a `www.` host longer than four characters, with no query, the URL written with the extra "/" normalises to the other one's result plus "/" |
| Canon.NormalFormIgnoresWww | crawler.js:46-50 | a host "www." + h, for a non-empty h that does not itself start with `www.`, and the host the `hostname` setter makes of h (h itself, or the empty host for a `file` URL's "localhost") give the same normal form when the path is non-empty, does not end in "/", and there is no query |
| Canon.NormalizeIgnoresWww | crawler.js:46-50 | the same, for the raw strings that parse to those records |
| Canon.HrefWithoutFragmentHasNoHash | crawler.js:40-42 | a parsed URL with its fragment cleared serialises without any "#" |
| Canon.NormalizeDropsFragment | crawler.js:39-40 | no normalised URL contains "#" |
| Canon.WwwDomainRejectsOwnHost | crawler.js:13-50 | when the domain starts with `www.` and is longer than four characters, every link on that host normalises to its `href` without the `www.`, which `isValidUrl` rejects (given a parser that reads a serialisation back as the record it came from) |
| Frontier.Create | crawler.js:2-11 | the constructor starts with empty collections, no base URL or domain, and the given limits; for a non-negative `maxConcurrent` the state then satisfies the invariants |
| Frontier.CreateDefault | crawler.js:2 | the default limits are 5 URLs in flight and depth 3 |
| Frontier.SetBaseUrl | crawler.js:13-21 | on a URL that parses alone, `baseUrl` becomes the raw string and `domain` its hostname; otherwise nothing changes; no other field ever changes |
| Frontier.SetBaseUrlStrict | lib/crawler.js:13-21 | fails with `Invalid base URL` exactly when the URL does not parse, and otherwise sets `baseUrl` and `domain` and nothing else |
| Frontier.SetBaseUrlVariantsAgree | lib/crawler.js:13-21 | the throwing and the logging `setBaseUrl` give the same state wherever the first does not throw, and the logging one changes nothing where it does |
| Frontier.AddToQueue | crawler.js:57-66 | only the queue changes, and only by growing at its tail; it grows by one entry, `{normalizeUrl(url), depth}`, exactly when the normalised URL is non-empty, not visited, not in flight, not queued and `depth <= maxDepth`; afterwards a non-empty normalised URL within depth is queued, visited or in flight |
| Frontier.AddToQueuePreservesValid | crawler.js:57-66 | queued URLs stay pairwise distinct, queued depths stay within `maxDepth`, and the in-flight count stays within `maxConcurrent` |
| Frontier.AddToQueuePreservesExclusive | crawler.js:59-62 | no URL becomes both queued and visited or in flight |
| Frontier.AddToQueueIdempotent | lib/crawler.js:57-72 | enqueuing the same URL twice leaves the state one call leaves |
| Frontier.NeedsScreenshot | crawler.js:79-82 | a URL needs a screenshot exactly when recording one for it would change the state |
| Frontier.CanProcess | crawler.js:84-86 | true exactly when the queue is non-empty and fewer than `maxConcurrent` URLs are in flight; when true, putting the head in flight keeps at most `maxConcurrent` URLs in flight |
| Frontier.GetNext | crawler.js:84-95 | returns nothing and changes nothing exactly when `canProcess()` is false; otherwise returns the head, the rest of the queue stays, and only the head's URL joins `processing` |
| Frontier.GetNextPreservesValid | crawler.js:84-95 | `getNext` keeps queued URLs distinct, depths within `maxDepth` and the in-flight count within `maxConcurrent` |
| Frontier.GetNextPreservesExclusive | crawler.js:88-92 | the URL put in flight was neither visited nor elsewhere in the queue |
| Frontier.GetNextIsFifo | lib/crawler.js:90-106 | a successful `getNext` returns the former first entry and shortens the queue by exactly one |
| Frontier.GetNextTwiceInOrder | crawler.js:88-95 | two calls in a row hand out the first two entries in queue order |
| Frontier.MarkAsProcessed | crawler.js:68-72 | the normalised URL joins `visitedUrls` and leaves `processing`; queue, screenshots and configuration stay |
| Frontier.MarkAsProcessedPreservesValid | crawler.js:68-72 | `markAsProcessed` keeps the invariants |
| Frontier.MarkAsProcessedExclusive | lib/crawler.js:74-78 | the states stay apart exactly when the normalised URL is not still queued, in particular when it is the URL in flight |
| Frontier.MarkAsProcessedReleases | crawler.js:68-72 | an in-flight URL leaves `processing` exactly when it is its own normalisation; otherwise it keeps its slot |
| Frontier.MarkScreenshotTaken | crawler.js:74-77 | the normalised URL joins `screenshotsTaken` and nothing else changes |
| Frontier.MarkScreenshotTakenPreserves | crawler.js:74-77 | recording a screenshot keeps the invariants |
| Frontier.ScreenshotAtMostOnce | lib/crawler.js:80-88 | after `markScreenshotTaken(u)`, `needsScreenshot(u)` is false, and no URL starts needing one again |
| Frontier.ScreenshotsOnlyGrow | lib/crawler.js:80-113 | the screenshot set grows under `markScreenshotTaken`; `addToQueue`, `getNext`, `markAsProcessed` and both `setBaseUrl`s leave it alone; only `reset` empties it |
| Frontier.Reset | lib/crawler.js:108-113 | `reset` empties the four collections and keeps `maxConcurrent`, `maxDepth`, `baseUrl` and `domain` |
| Feed.ValidLinks | server.js:274-276 | every kept link is a valid normalisation of some input link, every input link whose normalisation is valid is kept, and no more links come out than go in |
| Feed.AddAll | server.js:315-317 | feeding URLs one by one leaves sets and configuration alone and only appends, at the given depth, at most one entry per URL |
| Feed.FeedLinks | server.js:315-317 | feeding a page's links only appends entries one level deeper than the page |
| Feed.AddAllPreservesValid | server.js:315-317 | the fold keeps the invariants |
| Feed.AddAllPreservesExclusive | server.js:315-317 | the fold keeps queued, in-flight and visited URLs apart |
| Feed.AddAllCovers | server.js:315-317 | every fed URL whose normalisation is fresh and within depth ends up queued |
| Feed.AddAllSound | server.js:315-317 | every entry the fold adds is the normalisation of a fed URL |
| Feed.FeedLinksSound | server.js:274-276 | feeding keeps the invariants, and each new entry is one level deeper than the page, within `maxDepth`, and comes from a link whose normalisation is valid (normalised again by `addToQueue`) |
| Feed.FeedLinksComplete | server.js:315-317 | each link whose normalisation is valid and whose second normalisation is fresh is queued when the next level is within `maxDepth` |
| Scenarios.WwwKeepsTrailingSlash | crawler.js:42-50 | "https://www.a.com/x/" normalises to "https://a.com/x/" but "https://a.com/x/" to "https://a.com/x" |
| Scenarios.NormalizeNotIdempotent | crawler.js:36-55 | normalising that `www.` result again gives a different string |
| Scenarios.WwwEntryStaysInFlight | crawler.js:68-72 | the in-flight "https://a.com/x/" stays in `processing` after `markAsProcessed`, and "https://a.com/x" is recorded as visited |
| Scenarios.WwwSeedStaysInFlight | server.js:354-358 | on the seed "https://www.a.com/", `setBaseUrl` and `addToQueue(seed, 0)` queue "https://a.com/"; `getNext` hands it out, and `markAsProcessed` of it records "https://a.com" as visited while "https://a.com/" stays in flight |
| Scenarios.WwwSeedLinkRejected | crawler.js:30 | on the seed "https://www.a.com/", the link "https://www.a.com/about" normalises to a URL that `isValidUrl` rejects |
| Scenarios.WwwSeedQueuesNoLinks | crawler.js:17 | a crawl seeded on "https://www.a.com/" stores the domain "www.a.com", and feeding it the link "https://www.a.com/about" queues nothing |
| Scenarios.FileWwwLocalhost | crawler.js:46-50 | "file://www.localhost/x" normalises to "file:///x" |
| Scenarios.ExampleAbout | crawler.js:23-34 | "https://example.com/about" keeps its spelling and is valid |
| Scenarios.ExampleLogo | crawler.js:27 | "https://cdn.example.com/logo.png" keeps its spelling and is rejected |
| Scenarios.ExampleLinks | server.js:274-276 | of the example page's two links only the same-site page is kept |
| Scenarios.SameSiteLinkOnly | server.js:315-317 | feeding the example page from a fresh frontier queues exactly `{https://example.com/about, 1}` |

## Left out

- The basic URL parser: relative resolution, percent-encoding, IDNA and
  default ports. It is a parameter. A lemma that needs a concrete result
  takes the parser's value for the strings it uses as a hypothesis.
- `SetHostname`: does not re-parse an arbitrary value as a host. It models
  the setter for the value `normalizeUrl` passes, the tail of a host the
  parser already accepted, which host parsing gives back unchanged except
  for the `file` rule that turns "localhost" into the empty host.
- The JavaScript regular-expression engine: the denylist test is a suffix
  check over the thirteen extensions, with ASCII-only lower-casing (an `/i`
  match of these ASCII alternatives).
- The `console.log` and `console.error` calls of both copies: logging only.
- `server.js`, except the link-feeding rule:
  - the Express routes, CORS and the Server-Sent Events broadcast are I/O;
  - Playwright navigation and screenshot encoding are browser I/O;
  - memory logging is output only;
  - `processQueue`'s fire-and-forget concurrency is left out because the
    model is sequential.
- `crawlerFunction/index.js` and its `maxPages` cap: an Azure Function
  handler interleaved with browser I/O.
- JavaScript integer width: `depth`, `maxDepth` and `maxConcurrent` are
  unbounded integers. The crawler's values are small.

=== FILE: canon.dfy ===
/** URL canonicalisation and same-site filtering of `CrawlerQueue`
    (`normalizeUrl` and `isValidUrl`). Both resolve the raw string against
    the queue's `baseUrl` with `new URL(url, baseUrl)` and treat a thrown
    parse error as "" (normalise) or `false` (validate). */
module Canon {
  import opened Wrappers
  import opened Strings
  import opened WhatwgUrl

  /** The extensions of non-HTML resources, as listed in the alternation of
      the crawler's regular expression. */
  const Denylist: seq<string> :=
    ["jpg", "jpeg", "png", "gif", "css", "js", "json", "xml", "ico", "pdf", "zip", "doc", "docx"]

  /** The pathname matches `\.(jpg|...|docx)$` case-insensitively: it ends
      with a dot and one of the denylisted extensions. */
  predicate HasDeniedExtension(path: string) {
    exists i :: 0 <= i < |Denylist| && EndsWith(Lower(path), "." + Denylist[i])
  }

  /** The regular expression test, as a scan of the alternation from left to
      right. */
  method MatchesDenylist(path: string) returns (matched: bool)
    ensures matched <==> HasDeniedExtension(path)
  {
    var lowered := Lower(path);
    var i := 0;
    matched := false;
    while i < |Denylist| && !matched
      invariant 0 <= i <= |Denylist|
      invariant matched <==> exists k :: 0 <= k < i && EndsWith(lowered, "." + Denylist[k])
    {
      matched := EndsWith(lowered, "." + Denylist[i]);
      i := i + 1;
    }
  }

  lemma LowerIdempotent(s: string)
    ensures Lower(Lower(s)) == Lower(s)
  {
  }

  /** The extension test cannot tell a path from its lower-case form. */
  lemma DeniedExtensionIgnoresCase(path: string)
    ensures HasDeniedExtension(path) <==> HasDeniedExtension(Lower(path))
  {
    LowerIdempotent(path);
  }

  /** What `normalizeUrl` makes of a URL that parsed: clear the hash,
      strip one trailing "/" from `href`, and, when the hostname starts with
      "www.", drop those four characters from the host and take a fresh
      `href` instead (which still carries its trailing "/"). Never empty. */
  function NormalForm(u: Url): (r: string)
    ensures r != ""
  {
    var cleared := ClearHash(u);
    var href := Href(cleared);
    var normalized := if EndsWith(href, "/") then DropLast(href) else href;
    if StartsWith(Hostname(cleared), "www.") then
      Href(SetHostname(cleared, Hostname(cleared)[4..]))
    else
      assert href[|cleared.scheme|] == ':';
      normalized
  }

  /** `normalizeUrl`: resolve against the base and take the normal form; a
      parse failure gives "", and only a parse failure does. */
  function Normalize(parse: Parser, baseUrl: string, raw: string): (r: string)
    ensures r == "" <==> NewUrl(parse, raw, Some(baseUrl)).None?
  {
    match NewUrl(parse, raw, Some(baseUrl))
    case None => ""
    case Some(u) => NormalForm(u)
  }

  /** `isValidUrl` as `crawler.js` writes it: false when the URL does not
      parse, false when the pathname has a denylisted extension, and
      otherwise whether the hostname equals `domain` exactly. */
  function IsValidUrl(parse: Parser, baseUrl: string, domain: string, raw: string): (b: bool)
    ensures b ==> NewUrl(parse, raw, Some(baseUrl)).Some?
    ensures b ==> Hostname(NewUrl(parse, raw, Some(baseUrl)).value) == domain
    ensures b ==> !HasDeniedExtension(Pathname(NewUrl(parse, raw, Some(baseUrl)).value))
  {
    match NewUrl(parse, raw, Some(baseUrl))
    case None => false
    case Some(u) =>
      if HasDeniedExtension(Pathname(u)) then false
      else Hostname(u) == domain
  }

  /** `isValidUrl` as `lib/crawler.js` writes it: one conjunction. It
      answers as `crawler.js`'s form does on every input. */
  function IsValidUrlConjunctive(parse: Parser, baseUrl: string, domain: string, raw: string): (b: bool)
    ensures b == IsValidUrl(parse, baseUrl, domain, raw)
  {
    match NewUrl(parse, raw, Some(baseUrl))
    case None => false
    case Some(u) => !HasDeniedExtension(Pathname(u)) && Hostname(u) == domain
  }

  /** The two written forms of `isValidUrl` agree on every input, and a
      parsed URL is valid exactly when it has no denylisted extension and
      its hostname is `domain`. */
  lemma IsValidUrlForms(parse: Parser, baseUrl: string, domain: string, raw: string)
    ensures IsValidUrl(parse, baseUrl, domain, raw) == IsValidUrlConjunctive(parse, baseUrl, domain, raw)
    ensures NewUrl(parse, raw, Some(baseUrl)).None? ==> !IsValidUrl(parse, baseUrl, domain, raw)
    ensures forall u :: NewUrl(parse, raw, Some(baseUrl)) == Some(u) ==>
      (IsValidUrl(parse, baseUrl, domain, raw) <==> !HasDeniedExtension(u.path) && Hostname(u) == domain)
  {
  }

  /** For a host without "www.", the result is `href` without its fragment,
      with exactly one final "/" removed when there is one. */
  lemma NormalizePlainHost(parse: Parser, baseUrl: string, raw: string, u: Url)
    requires NewUrl(parse, raw, Some(baseUrl)) == Some(u)
    requires !StartsWith(Hostname(u), "www.")
    ensures var h := Href(ClearHash(u)); var r := Normalize(parse, baseUrl, raw);
      (EndsWith(h, "/") ==> r + "/" == h) && (!EndsWith(h, "/") ==> r == h)
  {
    assert Normalize(parse, baseUrl, raw) == NormalForm(u);
  }

  /** The host a "www." host becomes: the rest of it, as the `hostname`
      setter stores it. */
  function WwwCut(u: Url): string
    requires StartsWith(Hostname(u), "www.")
  {
    SetterHost(u.scheme, Hostname(u)[4..])
  }

  /** The cut host is the tail after "www.", or nothing for "www.localhost". */
  lemma WwwCutIsTail(u: Url)
    requires StartsWith(Hostname(u), "www.")
    ensures var h := Hostname(u); WwwCut(u) == h[4..] || (WwwCut(u) == "" && h == "www.localhost")
  {
    var h := Hostname(u);
    if WwwCut(u) != h[4..] {
      assert h == h[..4] + h[4..] == "www." + "localhost";
    }
  }

  lemma NormalFormWwwShape(u: Url)
    requires StartsWith(Hostname(u), "www.")
    ensures var c := ClearHash(u);
      || NormalForm(u) == BeforeHost(c) + WwwCut(u) + AfterHost(c)
      || (Hostname(u) == "www." && NormalForm(u) == Href(c))
  {
    var c := ClearHash(u);
    var h := Hostname(u);
    HrefAfterSetHostname(c, h[4..]);
    var s := SetHostname(c, h[4..]);
    if s != c {
      assert Hostname(s) == WwwCut(u);
    }
  }

  /** The string core of the "www." case: replacing the host part `h` of an
      `href` that ends in "/" by the rest of it, or by nothing when it was
      "www.localhost", leaves a string ending in "/". */
  lemma WwwCutKeepsFinalSlash(href: string, r: string, pre: string, h: string, t: string, a: string)
    requires href == pre + h + a && StartsWith(h, "www.")
    requires t == h[4..] || (t == "" && h == "www.localhost")
    requires r == pre + t + a || r == href
    ensures EndsWith(href, "/") ==> EndsWith(r, "/")
  {
    if |a| > 0 {
      if r != href {
        assert r[|r| - 1] == a[|a| - 1] == href[|href| - 1];
      }
    } else if t == h[4..] && |h| > 4 {
      if r != href {
        assert r[|r| - 1] == h[|h| - 1] == href[|href| - 1];
      }
    } else {
      assert h == "www." || h == "www.localhost" by {
        if t == h[4..] {
          assert h == h[..4] == "www.";
        }
      }
      assert href[|href| - 1] == h[|h| - 1] != '/';
    }
  }

  lemma NormalFormWwwKeepsSlash(u: Url)
    requires StartsWith(Hostname(u), "www.")
    ensures EndsWith(Href(ClearHash(u)), "/") ==> EndsWith(NormalForm(u), "/")
  {
    var c := ClearHash(u);
    var h := Hostname(u);
    NormalFormWwwShape(u);
    HrefAroundHost(c);
    WwwCutIsTail(u);
    WwwCutKeepsFinalSlash(Href(c), NormalForm(u), BeforeHost(c), h, WwwCut(u), AfterHost(c));
  }

  /** For a host with "www.", the result is `href` without its fragment and
      with those four characters cut out of the host (a `file` URL's
      "www.localhost" becomes the empty host); nothing else changes, so a
      trailing "/" stays. (The bare host "www." is the one exception: a
      special scheme refuses the empty host and keeps it.) */
  lemma NormalizeWwwHost(parse: Parser, baseUrl: string, raw: string, u: Url)
    requires NewUrl(parse, raw, Some(baseUrl)) == Some(u)
    requires StartsWith(Hostname(u), "www.")
    ensures var c := ClearHash(u); var r := Normalize(parse, baseUrl, raw);
      || r == BeforeHost(c) + WwwCut(u) + AfterHost(c)
      || (Hostname(u) == "www." && r == Href(c))
    ensures EndsWith(Href(ClearHash(u)), "/") ==> EndsWith(Normalize(parse, baseUrl, raw), "/")
  {
    assert Normalize(parse, baseUrl, raw) == NormalForm(u);
    NormalFormWwwShape(u);
    NormalFormWwwKeepsSlash(u);
  }

  /** URLs that the parser resolves to records differing only in their
      fragment normalise to the same string. */
  lemma NormalizeIgnoresFragment(parse: Parser, baseUrl: string, a: string, b: string, u: Url, f: Option<string>)
    requires NewUrl(parse, a, Some(baseUrl)) == Some(u)
    requires NewUrl(parse, b, Some(baseUrl)) == Some(u.(fragment := f))
    ensures Normalize(parse, baseUrl, a) == Normalize(parse, baseUrl, b)
  {
    assert ClearHash(u) == ClearHash(u.(fragment := f));
  }

  /** The normal form of a URL whose host has no "www.": its `href`
      without fragment, less one final "/". */
  lemma NormalFormPlain(u: Url)
    requires !StartsWith(Hostname(u), "www.")
    ensures var h := Href(ClearHash(u));
      (EndsWith(h, "/") ==> NormalForm(u) + "/" == h) && (!EndsWith(h, "/") ==> NormalForm(u) == h)
  {
  }

  /** With a host and no query, one more "/" on the path is one more "/" on
      the `href`, and the `href` ends like the path. */
  lemma HrefAppendSlash(u: Url)
    requires u.host.Some? && u.query.None? && |u.path| > 0
    ensures Href(ClearHash(u.(path := u.path + "/"))) == Href(ClearHash(u)) + "/"
    ensures EndsWith(Href(ClearHash(u)), "/") <==> u.path[|u.path| - 1] == '/'
    ensures Hostname(u.(path := u.path + "/")) == Hostname(u)
  {
    var ca := ClearHash(u);
    var cb := ClearHash(u.(path := u.path + "/"));
    HrefAroundHost(ca);
    HrefAroundHost(cb);
    SlashAfterHost(u);
    AppendAfter(BeforeHost(ca), Hostname(u), AfterHost(ca));
    assert AfterHost(ca) == PortPart(ca) + u.path;
    assert Href(ca)[|Href(ca)| - 1] == u.path[|u.path| - 1];
  }

  lemma NormalFormIgnoresTrailingSlash(u: Url)
    requires u.host.Some? && u.query.None?
    requires |u.path| > 0 && u.path[|u.path| - 1] != '/'
    requires !StartsWith(Hostname(u), "www.")
    ensures NormalForm(u) == NormalForm(u.(path := u.path + "/"))
  {
    var ub := u.(path := u.path + "/");
    NormalFormPlain(u);
    NormalFormPlain(ub);
    HrefAppendSlash(u);
  }

  /** On a host without "www.", a URL whose path ends in one extra "/"
      normalises like the URL without it (when there is no query). */
  lemma NormalizeIgnoresTrailingSlash(parse: Parser, baseUrl: string, a: string, b: string, u: Url)
    requires u.host.Some? && u.query.None?
    requires |u.path| > 0 && u.path[|u.path| - 1] != '/'
    requires !StartsWith(Hostname(u), "www.")
    requires NewUrl(parse, a, Some(baseUrl)) == Some(u)
    requires NewUrl(parse, b, Some(baseUrl)) == Some(u.(path := u.path + "/"))
    ensures Normalize(parse, baseUrl, a) == Normalize(parse, baseUrl, b)
  {
    NormalFormIgnoresTrailingSlash(u);
  }

  lemma NormalFormWww(u: Url)
    requires StartsWith(Hostname(u), "www.") && |Hostname(u)| > 4
    ensures NormalForm(u) == BeforeHost(ClearHash(u)) + WwwCut(u) + AfterHost(ClearHash(u))
  {
    NormalFormWwwShape(u);
  }

  /** One more "/" at the end of the path of a URL with a host and no
      query is one more "/" at the end of what follows the host. */
  lemma SlashAfterHost(u: Url)
    requires u.host.Some? && u.query.None?
    ensures var ub := u.(path := u.path + "/");
      && BeforeHost(ClearHash(ub)) == BeforeHost(ClearHash(u))
      && AfterHost(ClearHash(ub)) == AfterHost(ClearHash(u)) + "/"
      && Hostname(ub) == Hostname(u)
  {
  }

  lemma AppendAfter(pre: string, t: string, a: string)
    ensures pre + t + (a + "/") == (pre + t + a) + "/"
  {
  }

  lemma NormalFormWwwTrailingSlash(u: Url)
    requires u.host.Some? && u.query.None?
    requires StartsWith(Hostname(u), "www.") && |Hostname(u)| > 4
    ensures NormalForm(u.(path := u.path + "/")) == NormalForm(u) + "/"
  {
    var ub := u.(path := u.path + "/");
    NormalFormWww(u);
    NormalFormWww(ub);
    SlashAfterHost(u);
    AppendAfter(BeforeHost(ClearHash(u)), WwwCut(u), AfterHost(ClearHash(u)));
  }

  /** On a host with "www.", the same two URLs normalise to different
      strings: the one written with the extra "/" keeps it. */
  lemma WwwTrailingSlashNotIgnored(parse: Parser, baseUrl: string, a: string, b: string, u: Url)
    requires u.host.Some? && u.query.None?
    requires StartsWith(Hostname(u), "www.") && |Hostname(u)| > 4
    requires NewUrl(parse, a, Some(baseUrl)) == Some(u)
    requires NewUrl(parse, b, Some(baseUrl)) == Some(u.(path := u.path + "/"))
    ensures Normalize(parse, baseUrl, b) == Normalize(parse, baseUrl, a) + "/"
  {
    NormalFormWwwTrailingSlash(u);
  }

  lemma NormalFormIgnoresWww(u: Url, h: string)
    requires u.host == Some("www." + h) && h != "" && !StartsWith(h, "www.")
    requires u.query.None? && |u.path| > 0 && u.path[|u.path| - 1] != '/'
    ensures NormalForm(u) == NormalForm(u.(host := Some(SetterHost(u.scheme, h))))
  {
    var ub := u.(host := Some(SetterHost(u.scheme, h)));
    var ca := ClearHash(u);
    var cb := ClearHash(ub);
    assert Hostname(u)[4..] == h;
    HrefAfterSetHostname(ca, h);
    HrefAroundHost(cb);
    assert StartsWith(Hostname(u), "www.");
    assert Href(cb)[|Href(cb)| - 1] == u.path[|u.path| - 1];
    assert SetHostname(ca, h) == cb;
  }

  /** A host with "www." and the same host without it normalise alike when
      the path does not end in "/" and there is no query (for a `file` URL,
      "www.localhost" goes with the empty host, as the `hostname` setter
      stores "localhost"). */
  lemma NormalizeIgnoresWww(parse: Parser, baseUrl: string, a: string, b: string, u: Url, h: string)
    requires u.host == Some("www." + h) && h != "" && !StartsWith(h, "www.")
    requires u.query.None? && |u.path| > 0 && u.path[|u.path| - 1] != '/'
    requires NewUrl(parse, a, Some(baseUrl)) == Some(u)
    requires NewUrl(parse, b, Some(baseUrl)) == Some(u.(host := Some(SetterHost(u.scheme, h))))
    ensures Normalize(parse, baseUrl, a) == Normalize(parse, baseUrl, b)
  {
    NormalFormIgnoresWww(u, h);
  }

  predicate NoHash(s: string) {
    '#' !in s
  }

  /** No '#' outside the fragment: what the basic URL parser guarantees,
      since '#' ends the path and the query and is percent-encoded or
      forbidden elsewhere. */
  predicate HashOnlyInFragment(u: Url) {
    && NoHash(u.scheme) && NoHash(u.username) && NoHash(u.password)
    && NoHash(Hostname(u)) && NoHash(u.port.GetOr("")) && NoHash(u.path)
    && NoHash(u.query.GetOr(""))
  }

  lemma HrefWithoutFragmentHasNoHash(u: Url)
    requires HashOnlyInFragment(u) && u.fragment.None?
    ensures NoHash(Href(u))
  {
    assert NoHash(SerializedPath(u));
    assert NoHash(QueryPart(u)) && FragmentPart(u) == "";
    if u.host.Some? {
      assert NoHash(Userinfo(u));
      assert NoHash(AfterHost(u));
      HrefAroundHost(u);
    }
  }

  /** The fragment is gone from every normalised URL. */
  lemma NormalizeDropsFragment(parse: Parser, baseUrl: string, raw: string, u: Url)
    requires NewUrl(parse, raw, Some(baseUrl)) == Some(u)
    requires HashOnlyInFragment(u)
    ensures NoHash(Normalize(parse, baseUrl, raw))
  {
    assert Normalize(parse, baseUrl, raw) == NormalForm(u);
    var c := ClearHash(u);
    HrefWithoutFragmentHasNoHash(c);
    if StartsWith(Hostname(c), "www.") {
      var s := SetHostname(c, Hostname(c)[4..]);
      assert NoHash(Hostname(s)) by {
        if s != c {
          assert Hostname(s) == SetterHost(c.scheme, Hostname(c)[4..]);
          if Hostname(s) != "" {
            assert Hostname(s) == Hostname(c)[4..];
          }
        }
      }
      HrefWithoutFragmentHasNoHash(s);
    } else {
      var h := Href(c);
      if EndsWith(h, "/") {
        assert forall i :: 0 <= i < |h| - 1 ==> DropLast(h)[i] == h[i];
      }
    }
  }

  /** When the crawl's domain starts with "www." (the seed was written with
      it), a link on that very host is never valid after normalisation: the
      normal form names the host without "www.", and the parser, reading a
      serialisation back as the record it came from, reports that shorter
      hostname. */
  lemma WwwDomainRejectsOwnHost(parse: Parser, baseUrl: string, domain: string, raw: string, b: Url, u: Url)
    requires parse(baseUrl, None) == Some(b) && parse(raw, Some(b)) == Some(u)
    requires u.host == Some(domain) && StartsWith(domain, "www.") && |domain| > 4
    requires var w := SetHostname(ClearHash(u), domain[4..]); parse(Href(w), Some(b)) == Some(w)
    ensures Normalize(parse, baseUrl, raw) == Href(SetHostname(ClearHash(u), domain[4..]))
    ensures !IsValidUrl(parse, baseUrl, domain, Normalize(parse, baseUrl, raw))
  {
    var w := SetHostname(ClearHash(u), domain[4..]);
    assert Hostname(w) == SetterHost(u.scheme, domain[4..]);
    assert |Hostname(w)| < |domain|;
  }
}

=== FILE: feed.dfy ===
/** How the crawl loop feeds the links found on a page back into the
    frontier: normalise every link, keep those `isValidUrl` accepts, then
    call `addToQueue` on each, in order, one level deeper than the page. */
module Feed {
  import opened WhatwgUrl
  import opened Canon
  import opened Frontier

  /** `links.map(normalizeUrl).filter(isValidUrl)`. */
  function ValidLinks(parse: Parser, q: CrawlerQueue, links: seq<string>): (r: seq<string>)
    ensures |r| <= |links|
    ensures forall x :: x in r ==> IsValidUrl(parse, q.baseUrl, q.domain, x)
    ensures forall x :: x in r ==> exists l :: l in links && x == Normalize(parse, q.baseUrl, l)
    ensures forall l :: l in links && IsValidUrl(parse, q.baseUrl, q.domain, Normalize(parse, q.baseUrl, l)) ==>
      Normalize(parse, q.baseUrl, l) in r
    decreases |links|
  {
    if links == [] then []
    else
      var n := Normalize(parse, q.baseUrl, links[0]);
      var rest := ValidLinks(parse, q, links[1..]);
      assert forall l :: l in links ==> l == links[0] || l in links[1..];
      if IsValidUrl(parse, q.baseUrl, q.domain, n) then [n] + rest else rest
  }

  /** `urls.forEach(u => addToQueue(u, depth))`. The sets and the
      configuration stay; the queue only grows at its tail, and every entry
      it gains has depth `depth`. */
  function AddAll(parse: Parser, q: CrawlerQueue, urls: seq<string>, depth: int): (r: CrawlerQueue)
    ensures SameExceptQueue(r, q)
    ensures q.queue <= r.queue && |r.queue| <= |q.queue| + |urls|
    ensures forall i :: |q.queue| <= i < |r.queue| ==> r.queue[i].depth == depth
    decreases |urls|
  {
    if urls == [] then q
    else
      var q' := AddToQueue(parse, q, urls[0], depth);
      var r := AddAll(parse, q', urls[1..], depth);
      r
  }

  /** The links of one page at `depth`, fed at `depth + 1`. */
  function FeedLinks(parse: Parser, q: CrawlerQueue, links: seq<string>, depth: int): (r: CrawlerQueue)
    ensures SameExceptQueue(r, q)
    ensures q.queue <= r.queue
    ensures forall i :: |q.queue| <= i < |r.queue| ==> r.queue[i].depth == depth + 1
  {
    AddAll(parse, q, ValidLinks(parse, q, links), depth + 1)
  }

  lemma {:induction false} AddAllPreservesValid(parse: Parser, q: CrawlerQueue, urls: seq<string>, depth: int)
    requires Valid(q)
    ensures Valid(AddAll(parse, q, urls, depth))
    decreases |urls|
  {
    if urls != [] {
      AddToQueuePreservesValid(parse, q, urls[0], depth);
      AddAllPreservesValid(parse, AddToQueue(parse, q, urls[0], depth), urls[1..], depth);
    }
  }

  lemma {:induction false} AddAllPreservesExclusive(parse: Parser, q: CrawlerQueue, urls: seq<string>, depth: int)
    requires Exclusive(q)
    ensures Exclusive(AddAll(parse, q, urls, depth))
    decreases |urls|
  {
    if urls != [] {
      AddToQueuePreservesExclusive(parse, q, urls[0], depth);
      AddAllPreservesExclusive(parse, AddToQueue(parse, q, urls[0], depth), urls[1..], depth);
    }
  }

  lemma QueuedStays(queue: seq<Entry>, longer: seq<Entry>, url: string)
    requires queue <= longer
    requires Queued(queue, url)
    ensures Queued(longer, url)
  {
    var i :| 0 <= i < |queue| && queue[i].url == url;
    assert longer[i] == queue[i];
  }

  /** Every URL the fold was given whose normalisation is non-empty, not
      visited, not in flight and within depth ends up queued (by this call
      or earlier). */
  lemma {:induction false} AddAllCovers(parse: Parser, q: CrawlerQueue, urls: seq<string>, depth: int, u: string)
    requires u in urls
    requires var n := Normalize(parse, q.baseUrl, u);
      n != "" && n !in q.visitedUrls && n !in q.processing && depth <= q.maxDepth
    ensures Queued(AddAll(parse, q, urls, depth).queue, Normalize(parse, q.baseUrl, u))
    decreases |urls|
  {
    var n := Normalize(parse, q.baseUrl, u);
    var q' := AddToQueue(parse, q, urls[0], depth);
    var r := AddAll(parse, q', urls[1..], depth);
    assert r == AddAll(parse, q, urls, depth);
    if u == urls[0] {
      if !Queued(q.queue, n) {
        assert q'.queue[|q.queue|].url == n;
      } else {
        QueuedStays(q.queue, q'.queue, n);
      }
      QueuedStays(q'.queue, r.queue, n);
    } else {
      assert u in urls[1..];
      AddAllCovers(parse, q', urls[1..], depth, u);
    }
  }

  /** Every entry the fold adds is the normalisation of one of the URLs it
      was given. */
  lemma {:induction false} AddAllSound(parse: Parser, q: CrawlerQueue, urls: seq<string>, depth: int, i: int)
    requires |q.queue| <= i < |AddAll(parse, q, urls, depth).queue|
    ensures exists u :: u in urls && AddAll(parse, q, urls, depth).queue[i].url == Normalize(parse, q.baseUrl, u)
    decreases |urls|
  {
    var q' := AddToQueue(parse, q, urls[0], depth);
    var r := AddAll(parse, q', urls[1..], depth);
    if i < |q'.queue| {
      assert r.queue[i] == q'.queue[i];
      assert r.queue[i].url == Normalize(parse, q.baseUrl, urls[0]);
    } else {
      AddAllSound(parse, q', urls[1..], depth, i);
      var u :| u in urls[1..] && r.queue[i].url == Normalize(parse, q'.baseUrl, u);
      assert u in urls;
    }
  }

  /** Feeding a page's links keeps the frontier invariants, and every entry
      it adds comes from a link that normalises to a valid same-site URL and
      is queued at one level deeper than the page. */
  lemma FeedLinksSound(parse: Parser, q: CrawlerQueue, links: seq<string>, depth: int, i: int)
    requires Valid(q) && Exclusive(q)
    requires |q.queue| <= i < |FeedLinks(parse, q, links, depth).queue|
    ensures Valid(FeedLinks(parse, q, links, depth)) && Exclusive(FeedLinks(parse, q, links, depth))
    ensures var e := FeedLinks(parse, q, links, depth).queue[i];
      && e.depth == depth + 1 <= q.maxDepth
      && exists l :: l in links
           && IsValidUrl(parse, q.baseUrl, q.domain, Normalize(parse, q.baseUrl, l))
           && e.url == Normalize(parse, q.baseUrl, Normalize(parse, q.baseUrl, l))
  {
    var valid := ValidLinks(parse, q, links);
    AddAllPreservesValid(parse, q, valid, depth + 1);
    AddAllPreservesExclusive(parse, q, valid, depth + 1);
    AddAllSound(parse, q, valid, depth + 1, i);
    var v :| v in valid && FeedLinks(parse, q, links, depth).queue[i].url == Normalize(parse, q.baseUrl, v);
    var l :| l in links && v == Normalize(parse, q.baseUrl, l);
    assert IsValidUrl(parse, q.baseUrl, q.domain, v);
  }

  /** Every link that normalises to a valid URL whose second normalisation
      is fresh is queued after feeding, as long as the next level is within
      `maxDepth`. */
  lemma FeedLinksComplete(parse: Parser, q: CrawlerQueue, links: seq<string>, depth: int, l: string)
    requires l in links && depth + 1 <= q.maxDepth
    requires var v := Normalize(parse, q.baseUrl, l);
      IsValidUrl(parse, q.baseUrl, q.domain, v)
      && var n := Normalize(parse, q.baseUrl, v);
      n != "" && n !in q.visitedUrls && n !in q.processing
    ensures Queued(FeedLinks(parse, q, links, depth).queue,
                   Normalize(parse, q.baseUrl, Normalize(parse, q.baseUrl, l)))
  {
    var valid := ValidLinks(parse, q, links);
    AddAllCovers(parse, q, valid, depth + 1, Normalize(parse, q.baseUrl, l));
  }
}

=== FILE: frontier.dfy ===
/** The crawl frontier `CrawlerQueue`, which `crawler.js` and
    `lib/crawler.js` both define: a FIFO queue of `{url, depth}` entries, the
    `visitedUrls`, `processing` and `screenshotsTaken` sets, and the
    configuration. Every method becomes a pure function from the old state
    to the new one (and its return value). */
module Frontier {
  import opened Wrappers
  import opened WhatwgUrl
  import opened Canon

  datatype Entry = Entry(url: string, depth: int)

  datatype CrawlerQueue = CrawlerQueue(
    visitedUrls: set<string>,
    queue: seq<Entry>,
    processing: set<string>,
    screenshotsTaken: set<string>,
    maxConcurrent: int,
    maxDepth: int,
    baseUrl: string,
    domain: string)

  /** The error `lib/crawler.js` throws from `setBaseUrl`. */
  datatype BaseUrlError = InvalidBaseUrl(url: string)

  const DefaultMaxConcurrent := 5
  const DefaultMaxDepth := 3

  /** `queue.some(item => item.url === url)`. */
  predicate Queued(queue: seq<Entry>, url: string) {
    exists i :: 0 <= i < |queue| && queue[i].url == url
  }

  predicate DistinctUrls(queue: seq<Entry>) {
    forall i, j :: 0 <= i < j < |queue| ==> queue[i].url != queue[j].url
  }

  /** What every method keeps: no URL is queued twice, no queued depth
      exceeds `maxDepth`, and no more URLs are in flight than allowed. */
  predicate Valid(q: CrawlerQueue) {
    && DistinctUrls(q.queue)
    && (forall i :: 0 <= i < |q.queue| ==> q.queue[i].depth <= q.maxDepth)
    && |q.processing| <= q.maxConcurrent
  }

  /** A URL is in at most one of queued, in flight and visited. */
  predicate Exclusive(q: CrawlerQueue) {
    && (forall i :: 0 <= i < |q.queue| ==>
          q.queue[i].url !in q.visitedUrls && q.queue[i].url !in q.processing)
    && q.processing !! q.visitedUrls
  }

  /** The four collections, as `reset` leaves them. */
  predicate Empty(q: CrawlerQueue) {
    q.visitedUrls == {} && q.queue == [] && q.processing == {} && q.screenshotsTaken == {}
  }

  /** Same configuration (`maxConcurrent`, `maxDepth`, `baseUrl`, `domain`). */
  predicate SameConfig(a: CrawlerQueue, b: CrawlerQueue) {
    a.maxConcurrent == b.maxConcurrent && a.maxDepth == b.maxDepth
    && a.baseUrl == b.baseUrl && a.domain == b.domain
  }

  /** Everything but the queue agrees. */
  predicate SameExceptQueue(a: CrawlerQueue, b: CrawlerQueue) {
    && a.visitedUrls == b.visitedUrls && a.processing == b.processing
    && a.screenshotsTaken == b.screenshotsTaken && SameConfig(a, b)
  }

  /** The constructor: empty collections, no base URL yet. */
  function Create(maxConcurrent: int, maxDepth: int): (q: CrawlerQueue)
    ensures Empty(q) && q.baseUrl == "" && q.domain == ""
    ensures q.maxConcurrent == maxConcurrent && q.maxDepth == maxDepth
    ensures maxConcurrent >= 0 ==> Valid(q) && Exclusive(q)
  {
    CrawlerQueue({}, [], {}, {}, maxConcurrent, maxDepth, "", "")
  }

  /** `new CrawlerQueue()` with its default arguments. */
  function CreateDefault(): (q: CrawlerQueue)
    ensures Empty(q) && Valid(q) && Exclusive(q)
    ensures q.maxConcurrent == 5 && q.maxDepth == 3
  {
    Create(DefaultMaxConcurrent, DefaultMaxDepth)
  }

  /** `setBaseUrl` of `crawler.js`: on a URL that parses without a base,
      record the raw string and its hostname; otherwise the error is only
      logged and nothing changes. */
  function SetBaseUrl(parse: Parser, q: CrawlerQueue, url: string): (r: CrawlerQueue)
    ensures parse(url, None).None? ==> r == q
    ensures parse(url, None).Some? ==>
      r.baseUrl == url && r.domain == Hostname(parse(url, None).value)
    ensures r.(baseUrl := q.baseUrl, domain := q.domain) == q
  {
    match NewUrl(parse, url, None)
    case None => q
    case Some(u) => q.(baseUrl := url, domain := Hostname(u))
  }

  /** `setBaseUrl` of `lib/crawler.js`: the same update, but a URL that does
      not parse throws `Invalid base URL`. */
  function SetBaseUrlStrict(parse: Parser, q: CrawlerQueue, url: string): (r: Result<CrawlerQueue, BaseUrlError>)
    ensures r.Failure? <==> parse(url, None).None?
    ensures r.Failure? ==> r.error == InvalidBaseUrl(url)
    ensures r.Success? ==>
      r.value.baseUrl == url && r.value.domain == Hostname(parse(url, None).value)
      && r.value.(baseUrl := q.baseUrl, domain := q.domain) == q
  {
    match NewUrl(parse, url, None)
    case None => Failure(InvalidBaseUrl(url))
    case Some(u) => Success(q.(baseUrl := url, domain := Hostname(u)))
  }

  /** The two `setBaseUrl`s agree wherever the strict one does not throw,
      and the lenient one leaves the state as it was where it does. */
  lemma SetBaseUrlVariantsAgree(parse: Parser, q: CrawlerQueue, url: string)
    ensures SetBaseUrlStrict(parse, q, url).Success? ==>
      SetBaseUrlStrict(parse, q, url).value == SetBaseUrl(parse, q, url)
    ensures SetBaseUrlStrict(parse, q, url).Failure? ==> SetBaseUrl(parse, q, url) == q
  {
  }

  /** The guard of `addToQueue` on the normalised URL `n`. */
  predicate Admits(q: CrawlerQueue, n: string, depth: int) {
    && n != ""
    && n !in q.visitedUrls
    && n !in q.processing
    && !Queued(q.queue, n)
    && depth <= q.maxDepth
  }

  /** `addToQueue`: append `{normalizeUrl(url), depth}` at the tail when the
      normalised URL is non-empty, not visited, not in flight, not queued,
      and `depth <= maxDepth`; otherwise nothing changes. */
  function AddToQueue(parse: Parser, q: CrawlerQueue, url: string, depth: int): (r: CrawlerQueue)
    ensures r.(queue := q.queue) == q
    ensures q.queue <= r.queue && |r.queue| <= |q.queue| + 1
    ensures var n := Normalize(parse, q.baseUrl, url);
      |r.queue| == |q.queue| + 1 <==> Admits(q, n, depth)
    ensures var n := Normalize(parse, q.baseUrl, url);
      Admits(q, n, depth) ==> r.queue[|q.queue|] == Entry(n, depth)
    ensures var n := Normalize(parse, q.baseUrl, url);
      n != "" && depth <= q.maxDepth ==> Queued(r.queue, n) || n in q.visitedUrls || n in q.processing
  {
    var n := Normalize(parse, q.baseUrl, url);
    if Admits(q, n, depth) then q.(queue := q.queue + [Entry(n, depth)]) else q
  }

  /** `markAsProcessed`: the normalised URL joins `visitedUrls` and leaves
      `processing`; the queue, the screenshot set and the configuration stay. */
  function MarkAsProcessed(parse: Parser, q: CrawlerQueue, url: string): (r: CrawlerQueue)
    ensures var n := Normalize(parse, q.baseUrl, url);
      && r.visitedUrls == q.visitedUrls + {n}
      && r.processing == q.processing - {n}
    ensures r.queue == q.queue && r.screenshotsTaken == q.screenshotsTaken && SameConfig(r, q)
  {
    var n := Normalize(parse, q.baseUrl, url);
    q.(visitedUrls := q.visitedUrls + {n}, processing := q.processing - {n})
  }

  /** `markScreenshotTaken`: record the normalised URL. */
  function MarkScreenshotTaken(parse: Parser, q: CrawlerQueue, url: string): (r: CrawlerQueue)
    ensures r.screenshotsTaken == q.screenshotsTaken + {Normalize(parse, q.baseUrl, url)}
    ensures r.(screenshotsTaken := q.screenshotsTaken) == q
  {
    q.(screenshotsTaken := q.screenshotsTaken + {Normalize(parse, q.baseUrl, url)})
  }

  /** `needsScreenshot`: the normalised URL has not been recorded, which is
      exactly when `markScreenshotTaken` for it would change the state. */
  function NeedsScreenshot(parse: Parser, q: CrawlerQueue, url: string): (b: bool)
    ensures b <==> MarkScreenshotTaken(parse, q, url) != q
  {
    Normalize(parse, q.baseUrl, url) !in q.screenshotsTaken
  }

  /** `canProcess`: there is a queued entry, and putting it in flight keeps
      at most `maxConcurrent` URLs in flight. */
  function CanProcess(q: CrawlerQueue): (b: bool)
    ensures b ==> q.queue != [] && |q.processing| < q.maxConcurrent
    ensures b ==> |q.processing + {q.queue[0].url}| <= q.maxConcurrent
    ensures !b ==> q.queue == [] || |q.processing| >= q.maxConcurrent
  {
    |q.queue| > 0 && |q.processing| < q.maxConcurrent
  }

  /** `getNext`: `None` (JavaScript's `null`) and no change when
      `canProcess()` is false; otherwise the head of the queue is removed,
      put in flight and returned. */
  function GetNext(q: CrawlerQueue): (res: (Option<Entry>, CrawlerQueue))
    ensures res.0.None? <==> !CanProcess(q)
    ensures res.0.None? ==> res.1 == q
    ensures res.0.Some? ==>
      && [res.0.value] + res.1.queue == q.queue
      && res.1.processing == q.processing + {res.0.value.url}
      && res.1.(queue := q.queue, processing := q.processing) == q
  {
    if CanProcess(q) then
      var next := q.queue[0];
      (Some(next), q.(queue := q.queue[1..], processing := q.processing + {next.url}))
    else
      (None, q)
  }

  /** `reset`: empty the four collections, keep the configuration. */
  function Reset(q: CrawlerQueue): (r: CrawlerQueue)
    ensures Empty(r) && SameConfig(r, q)
    ensures q.maxConcurrent >= 0 ==> Valid(r) && Exclusive(r)
  {
    q.(visitedUrls := {}, queue := [], processing := {}, screenshotsTaken := {})
  }

  // ---------------------------------------------------------------------
  // Invariants

  lemma AddToQueuePreservesValid(parse: Parser, q: CrawlerQueue, url: string, depth: int)
    requires Valid(q)
    ensures Valid(AddToQueue(parse, q, url, depth))
  {
    var n := Normalize(parse, q.baseUrl, url);
    if Admits(q, n, depth) {
      var r := AddToQueue(parse, q, url, depth);
      forall i, j | 0 <= i < j < |r.queue|
        ensures r.queue[i].url != r.queue[j].url
      {
        if j == |q.queue| {
          assert r.queue[j].url == n;
          assert r.queue[i] == q.queue[i];
        } else {
          assert r.queue[i] == q.queue[i] && r.queue[j] == q.queue[j];
        }
      }
    }
  }

  lemma AddToQueuePreservesExclusive(parse: Parser, q: CrawlerQueue, url: string, depth: int)
    requires Exclusive(q)
    ensures Exclusive(AddToQueue(parse, q, url, depth))
  {
    var n := Normalize(parse, q.baseUrl, url);
    if Admits(q, n, depth) {
      var r := AddToQueue(parse, q, url, depth);
      assert forall i :: 0 <= i < |q.queue| ==> r.queue[i] == q.queue[i];
      assert r.queue[|q.queue|].url == n;
    }
  }

  /** Calling `addToQueue` twice with the same URL and depth leaves one
      entry, exactly as one call does. */
  lemma AddToQueueIdempotent(parse: Parser, q: CrawlerQueue, url: string, depth: int)
    ensures var once := AddToQueue(parse, q, url, depth);
      AddToQueue(parse, once, url, depth) == once
  {
    var n := Normalize(parse, q.baseUrl, url);
    var once := AddToQueue(parse, q, url, depth);
    if Admits(q, n, depth) {
      assert once.queue[|q.queue|].url == n;
      assert Queued(once.queue, n);
    }
  }

  lemma GetNextPreservesValid(q: CrawlerQueue)
    requires Valid(q)
    ensures Valid(GetNext(q).1)
  {
    if CanProcess(q) {
      var r := GetNext(q).1;
      assert forall i :: 0 <= i < |r.queue| ==> r.queue[i] == q.queue[i + 1];
      assert |r.processing| <= |q.processing| + 1;
    }
  }

  lemma GetNextPreservesExclusive(q: CrawlerQueue)
    requires Valid(q) && Exclusive(q)
    ensures Exclusive(GetNext(q).1)
  {
    if CanProcess(q) {
      var r := GetNext(q).1;
      var head := q.queue[0].url;
      forall i | 0 <= i < |r.queue|
        ensures r.queue[i].url !in r.visitedUrls && r.queue[i].url !in r.processing
      {
        assert r.queue[i] == q.queue[i + 1];
        assert q.queue[0].url != q.queue[i + 1].url;
      }
      assert head !in q.visitedUrls;
    }
  }

  /** A successful `getNext` returns the former head, shortens the queue by
      one, and puts in flight exactly that URL. */
  lemma GetNextIsFifo(q: CrawlerQueue)
    requires CanProcess(q)
    ensures var (e, r) := GetNext(q);
      && e == Some(q.queue[0])
      && r.queue == q.queue[1..]
      && |r.queue| == |q.queue| - 1
      && r.processing - q.processing <= {q.queue[0].url}
  {
  }

  /** Two `getNext` calls in a row hand out the first two entries in queue
      order. */
  lemma GetNextTwiceInOrder(q: CrawlerQueue)
    requires |q.queue| >= 2 && |q.processing| + 2 <= q.maxConcurrent
    ensures var (e1, r1) := GetNext(q); var (e2, r2) := GetNext(r1);
      e1 == Some(q.queue[0]) && e2 == Some(q.queue[1]) && r2.queue == q.queue[2..]
  {
    var r1 := GetNext(q).1;
    assert |r1.processing| <= |q.processing| + 1;
    assert r1.queue[0] == q.queue[1];
  }

  lemma MarkAsProcessedPreservesValid(parse: Parser, q: CrawlerQueue, url: string)
    requires Valid(q)
    ensures Valid(MarkAsProcessed(parse, q, url))
  {
    var r := MarkAsProcessed(parse, q, url);
    assert r.processing <= q.processing;
  }

  /** `markAsProcessed` keeps the three states apart exactly when the URL it
      marks visited is not still waiting in the queue; that holds in
      particular when the normalised URL is the one in flight. */
  lemma MarkAsProcessedExclusive(parse: Parser, q: CrawlerQueue, url: string)
    requires Valid(q) && Exclusive(q)
    ensures var n := Normalize(parse, q.baseUrl, url);
      Exclusive(MarkAsProcessed(parse, q, url)) <==> !Queued(q.queue, n)
    ensures Normalize(parse, q.baseUrl, url) in q.processing ==>
      Exclusive(MarkAsProcessed(parse, q, url))
  {
    var n := Normalize(parse, q.baseUrl, url);
    var r := MarkAsProcessed(parse, q, url);
    if Queued(q.queue, n) {
      var i :| 0 <= i < |q.queue| && q.queue[i].url == n;
      assert r.queue[i].url in r.visitedUrls;
    }
  }

  /** The in-flight string `url` leaves `processing` exactly when it is its
      own normalisation: a URL that normalises to a different string (such
      as "https://a.com/", which the seed "https://www.a.com/" is queued
      as) stays in flight for good and keeps holding a concurrency slot. */
  lemma MarkAsProcessedReleases(parse: Parser, q: CrawlerQueue, url: string)
    requires url in q.processing
    ensures var r := MarkAsProcessed(parse, q, url);
      url !in r.processing <==> Normalize(parse, q.baseUrl, url) == url
    ensures Normalize(parse, q.baseUrl, url) != url ==>
      |MarkAsProcessed(parse, q, url).processing| >= |q.processing| - 1
      && url in MarkAsProcessed(parse, q, url).processing
  {
    var r := MarkAsProcessed(parse, q, url);
    assert |r.processing| >= |q.processing| - 1 by {
      assert q.processing <= r.processing + {Normalize(parse, q.baseUrl, url)};
      assert |r.processing + {Normalize(parse, q.baseUrl, url)}| <= |r.processing| + 1;
    }
  }

  lemma MarkScreenshotTakenPreserves(parse: Parser, q: CrawlerQueue, url: string)
    requires Valid(q) && Exclusive(q)
    ensures Valid(MarkScreenshotTaken(parse, q, url)) && Exclusive(MarkScreenshotTaken(parse, q, url))
  {
  }

  /** After `markScreenshotTaken(url)`, `needsScreenshot(url)` is false, and
      any URL that needed no screenshot before still needs none. */
  lemma ScreenshotAtMostOnce(parse: Parser, q: CrawlerQueue, url: string, other: string)
    ensures !NeedsScreenshot(parse, MarkScreenshotTaken(parse, q, url), url)
    ensures !NeedsScreenshot(parse, q, other) ==>
      !NeedsScreenshot(parse, MarkScreenshotTaken(parse, q, url), other)
  {
  }

  /** The screenshot set grows under `markScreenshotTaken`, is left alone by
      `addToQueue`, `getNext`, `markAsProcessed` and both `setBaseUrl`s, and
      only `reset` empties it. */
  lemma ScreenshotsOnlyGrow(parse: Parser, q: CrawlerQueue, url: string, depth: int)
    ensures q.screenshotsTaken <= MarkScreenshotTaken(parse, q, url).screenshotsTaken
    ensures AddToQueue(parse, q, url, depth).screenshotsTaken == q.screenshotsTaken
    ensures MarkAsProcessed(parse, q, url).screenshotsTaken == q.screenshotsTaken
    ensures GetNext(q).1.screenshotsTaken == q.screenshotsTaken
    ensures SetBaseUrl(parse, q, url).screenshotsTaken == q.screenshotsTaken
    ensures SetBaseUrlStrict(parse, q, url).Success? ==>
      SetBaseUrlStrict(parse, q, url).value.screenshotsTaken == q.screenshotsTaken
    ensures Reset(q).screenshotsTaken == {}
  {
  }
}

=== FILE: scenarios.dfy ===
/** Concrete runs of the frontier. Each lemma names, as hypotheses, the
    records the basic URL parser returns for the strings involved (the
    values the URL Standard gives them), and derives what the crawler does
    with them. */
module Scenarios {
  import opened Wrappers
  import opened Strings
  import opened WhatwgUrl
  import opened Canon
  import opened Frontier
  import opened Feed

  /** An `https` URL with host `host` and path `path`, nothing else. */
  function Https(host: string, path: string): Url {
    Url("https", "", "", Some(host), None, path, None, None)
  }

  lemma HrefHttps(host: string, path: string)
    ensures ClearHash(Https(host, path)) == Https(host, path)
    ensures Href(Https(host, path)) == "https://" + host + path
  {
    HrefAroundHost(Https(host, path));
  }

  /** With the parser's results for the base and the input fixed,
      `normalizeUrl` and `isValidUrl` reduce to the parsed record. */
  lemma Parsed(parse: Parser, baseUrl: string, raw: string, b: Url, u: Url, domain: string)
    requires parse(baseUrl, None) == Some(b) && parse(raw, Some(b)) == Some(u)
    ensures Normalize(parse, baseUrl, raw) == NormalForm(u)
    ensures IsValidUrl(parse, baseUrl, domain, raw) <==> !HasDeniedExtension(u.path) && Hostname(u) == domain
  {
    assert NewUrl(parse, raw, Some(baseUrl)) == Some(u);
  }

  lemma NoWwwPrefix(host: string)
    requires |host| >= 4 && host[0] != 'w'
    ensures !StartsWith(host, "www.")
  {
    assert host[..4][0] != "www."[0];
  }

  /** The normal form of an `https` URL whose host has no "www." and whose
      path does not end in "/" is its `href`. */
  lemma PlainHttps(host: string, path: string)
    requires !StartsWith(host, "www.") && |path| > 0 && path[|path| - 1] != '/'
    ensures NormalForm(Https(host, path)) == "https://" + host + path
  {
    var u := Https(host, path);
    HrefHttps(host, path);
    NormalFormPlain(u);
    var h := "https://" + host + path;
    assert h[|h| - 1] == path[|path| - 1];
  }

  /** ... and with a final "/", its `href` without that "/". */
  lemma PlainHttpsSlash(host: string, path: string)
    requires !StartsWith(host, "www.") && |path| > 0 && path[|path| - 1] == '/'
    ensures NormalForm(Https(host, path)) == "https://" + host + path[..|path| - 1]
  {
    var u := Https(host, path);
    HrefHttps(host, path);
    NormalFormPlain(u);
    var h := "https://" + host + path;
    assert h[|h| - 1] == '/';
    assert h == ("https://" + host + path[..|path| - 1]) + "/";
  }

  /** The normal form of an `https` URL on a "www." host is its `href` with
      the "www." cut out, final "/" included. */
  lemma WwwHttps(host: string, path: string)
    requires StartsWith(host, "www.") && |host| > 4
    ensures NormalForm(Https(host, path)) == "https://" + host[4..] + path
  {
    var u := Https(host, path);
    HrefHttps(host, path);
    NormalFormWww(u);
    assert BeforeHost(u) == "https://" && AfterHost(u) == path;
  }

  /** A link that parses to an `https` URL without "www." and without a
      final "/" and that is already spelled as its `href` keeps its
      spelling. */
  lemma PlainLinkKeepsSpelling(parse: Parser, baseUrl: string, raw: string, b: Url, host: string, path: string)
    requires parse(baseUrl, None) == Some(b) && parse(raw, Some(b)) == Some(Https(host, path))
    requires !StartsWith(host, "www.") && |path| > 0 && path[|path| - 1] != '/'
    requires raw == "https://" + host + path
    ensures Normalize(parse, baseUrl, raw) == raw
  {
    Parsed(parse, baseUrl, raw, b, Https(host, path), "");
    PlainHttps(host, path);
  }

  // The literal string facts the "www.a.com" scenarios rest on, kept in one
  // small lemma so that the solver meets each spelling only once.
  lemma WwwSpelling()
    ensures StartsWith("www.a.com", "www.") && "www.a.com"[4..] == "a.com"
    ensures "https://" + "a.com" + "/x/" == "https://a.com/x/"
    ensures "https://" + "a.com" + "/x/"[..2] == "https://a.com/x"
    ensures "https://" + "a.com" + "/about" == "https://a.com/about"
    ensures "https://" + "a.com" + "/" == "https://a.com/"
    ensures "https://" + "a.com" + "/"[..|"/"| - 1] == "https://a.com"
  {
  }

  /** "https://www.a.com/x/" loses its "www." and keeps its trailing "/". */
  lemma WwwLinkNormal(parse: Parser)
    requires parse("https://a.com/", None) == Some(Https("a.com", "/"))
    requires parse("https://www.a.com/x/", Some(Https("a.com", "/"))) == Some(Https("www.a.com", "/x/"))
    ensures Normalize(parse, "https://a.com/", "https://www.a.com/x/") == "https://a.com/x/"
  {
    WwwSpelling();
    Parsed(parse, "https://a.com/", "https://www.a.com/x/", Https("a.com", "/"), Https("www.a.com", "/x/"), "");
    WwwHttps("www.a.com", "/x/");
  }

  /** "https://a.com/x/" loses its trailing "/". */
  lemma PlainLinkNormal(parse: Parser)
    requires parse("https://a.com/", None) == Some(Https("a.com", "/"))
    requires parse("https://a.com/x/", Some(Https("a.com", "/"))) == Some(Https("a.com", "/x/"))
    ensures Normalize(parse, "https://a.com/", "https://a.com/x/") == "https://a.com/x"
  {
    WwwSpelling();
    Parsed(parse, "https://a.com/", "https://a.com/x/", Https("a.com", "/"), Https("a.com", "/x/"), "");
    NoWwwPrefix("a.com");
    PlainHttpsSlash("a.com", "/x/");
  }

  /** "https://www.a.com/x/" keeps its trailing "/" ("https://a.com/x/"),
      while "https://a.com/x/" loses it ("https://a.com/x"). */
  lemma WwwKeepsTrailingSlash(parse: Parser)
    requires parse("https://a.com/", None) == Some(Https("a.com", "/"))
    requires parse("https://www.a.com/x/", Some(Https("a.com", "/"))) == Some(Https("www.a.com", "/x/"))
    requires parse("https://a.com/x/", Some(Https("a.com", "/"))) == Some(Https("a.com", "/x/"))
    ensures Normalize(parse, "https://a.com/", "https://www.a.com/x/") == "https://a.com/x/"
    ensures Normalize(parse, "https://a.com/", "https://a.com/x/") == "https://a.com/x"
  {
    WwwLinkNormal(parse);
    PlainLinkNormal(parse);
  }

  /** Normalising is not idempotent: the normal form of
      "https://www.a.com/x/" normalises once more to something else. */
  lemma NormalizeNotIdempotent(parse: Parser)
    requires parse("https://a.com/", None) == Some(Https("a.com", "/"))
    requires parse("https://www.a.com/x/", Some(Https("a.com", "/"))) == Some(Https("www.a.com", "/x/"))
    requires parse("https://a.com/x/", Some(Https("a.com", "/"))) == Some(Https("a.com", "/x/"))
    ensures var once := Normalize(parse, "https://a.com/", "https://www.a.com/x/");
      Normalize(parse, "https://a.com/", once) != once
  {
    WwwKeepsTrailingSlash(parse);
  }

  /** An in-flight entry "https://a.com/x/" is never released by
      `markAsProcessed`: the frontier records "https://a.com/x" as visited
      instead and the slot stays taken. (`WwwSeedStaysInFlight` shows how a
      crawl gets such an entry in flight.) */
  lemma WwwEntryStaysInFlight(parse: Parser, q: CrawlerQueue)
    requires parse("https://a.com/", None) == Some(Https("a.com", "/"))
    requires parse("https://a.com/x/", Some(Https("a.com", "/"))) == Some(Https("a.com", "/x/"))
    requires q.baseUrl == "https://a.com/" && "https://a.com/x/" in q.processing
    ensures var r := MarkAsProcessed(parse, q, "https://a.com/x/");
      && "https://a.com/x/" in r.processing
      && "https://a.com/x" in r.visitedUrls
      && |r.processing| >= |q.processing| - 1
  {
    PlainLinkNormal(parse);
    MarkAsProcessedReleases(parse, q, "https://a.com/x/");
  }

  /** On the seed "https://www.a.com/", the link "https://www.a.com/about"
      normalises to "https://a.com/about", which is not on the stored
      domain "www.a.com". */
  lemma WwwSeedLinkRejected(parse: Parser)
    requires parse("https://www.a.com/", None) == Some(Https("www.a.com", "/"))
    requires parse("https://www.a.com/about", Some(Https("www.a.com", "/")))
      == Some(Https("www.a.com", "/about"))
    requires parse("https://a.com/about", Some(Https("www.a.com", "/")))
      == Some(Https("a.com", "/about"))
    ensures Normalize(parse, "https://www.a.com/", "https://www.a.com/about") == "https://a.com/about"
    ensures !IsValidUrl(parse, "https://www.a.com/", "www.a.com", "https://a.com/about")
  {
    WwwSpelling();
    Parsed(parse, "https://www.a.com/", "https://www.a.com/about", Https("www.a.com", "/"),
      Https("www.a.com", "/about"), "www.a.com");
    WwwHttps("www.a.com", "/about");
    Parsed(parse, "https://www.a.com/", "https://a.com/about", Https("www.a.com", "/"),
      Https("a.com", "/about"), "www.a.com");
  }

  /** A crawl seeded on "https://www.a.com/" stores "www.a.com" as its
      domain, but its own link "https://www.a.com/about" normalises without
      the "www.", so `isValidUrl` rejects it and feeding that link queues
      nothing. */
  lemma WwwSeedQueuesNoLinks(parse: Parser, q: CrawlerQueue)
    requires parse("https://www.a.com/", None) == Some(Https("www.a.com", "/"))
    requires parse("https://www.a.com/about", Some(Https("www.a.com", "/")))
      == Some(Https("www.a.com", "/about"))
    requires parse("https://a.com/about", Some(Https("www.a.com", "/")))
      == Some(Https("a.com", "/about"))
    ensures var s := SetBaseUrl(parse, q, "https://www.a.com/");
      && s.domain == "www.a.com"
      && FeedLinks(parse, s, ["https://www.a.com/about"], 0).queue == s.queue
  {
    var s := SetBaseUrl(parse, q, "https://www.a.com/");
    var link := "https://www.a.com/about";
    assert s.baseUrl == "https://www.a.com/";
    WwwSeedLinkRejected(parse);
    assert [link][1..] == [];
    assert ValidLinks(parse, s, [link]) == [];
  }

  /** A `file` URL on "www.localhost" normalises to the empty host, as the
      `hostname` setter stores "localhost" for `file`: "file:///x". */
  lemma FileWwwLocalhost()
    ensures NormalForm(Url("file", "", "", Some("www.localhost"), None, "/x", None, None)) == "file:///x"
  {
    var u := Url("file", "", "", Some("www.localhost"), None, "/x", None, None);
    assert StartsWith("www.localhost", "www.") && "www.localhost"[4..] == "localhost";
    NormalFormWww(u);
    assert BeforeHost(u) == "file://" && AfterHost(u) == "/x";
  }

  /** The seed "https://www.a.com/", resolved against itself, normalises to
      "https://a.com/". */
  lemma WwwSeedNormal(parse: Parser)
    requires parse("https://www.a.com/", None) == Some(Https("www.a.com", "/"))
    requires parse("https://www.a.com/", Some(Https("www.a.com", "/"))) == Some(Https("www.a.com", "/"))
    ensures Normalize(parse, "https://www.a.com/", "https://www.a.com/") == "https://a.com/"
  {
    WwwSpelling();
    Parsed(parse, "https://www.a.com/", "https://www.a.com/", Https("www.a.com", "/"), Https("www.a.com", "/"), "");
    WwwHttps("www.a.com", "/");
  }

  /** On that seed, "https://a.com/" normalises to "https://a.com". */
  lemma WwwSeedEntryNormal(parse: Parser)
    requires parse("https://www.a.com/", None) == Some(Https("www.a.com", "/"))
    requires parse("https://a.com/", Some(Https("www.a.com", "/"))) == Some(Https("a.com", "/"))
    ensures Normalize(parse, "https://www.a.com/", "https://a.com/") == "https://a.com"
  {
    WwwSpelling();
    Parsed(parse, "https://www.a.com/", "https://a.com/", Https("www.a.com", "/"), Https("a.com", "/"), "");
    NoWwwPrefix("a.com");
    PlainHttpsSlash("a.com", "/");
  }

  /** `setBaseUrl` and `addToQueue(seed, 0)` on a fresh frontier queue the
      seed as "https://a.com/" and nothing else. */
  lemma WwwSeedQueued(parse: Parser)
    requires parse("https://www.a.com/", None) == Some(Https("www.a.com", "/"))
    requires parse("https://www.a.com/", Some(Https("www.a.com", "/"))) == Some(Https("www.a.com", "/"))
    ensures var t := AddToQueue(parse, SetBaseUrl(parse, CreateDefault(), "https://www.a.com/"), "https://www.a.com/", 0);
      && t.queue == [Entry("https://a.com/", 0)] && t.processing == {}
      && t.baseUrl == "https://www.a.com/" && t.maxConcurrent == DefaultMaxConcurrent
  {
    var s := SetBaseUrl(parse, CreateDefault(), "https://www.a.com/");
    assert s.baseUrl == "https://www.a.com/" && Empty(s);
    WwwSeedNormal(parse);
    assert Admits(s, "https://a.com/", 0);
  }

  /** The start of a crawl on the seed "https://www.a.com/": `setBaseUrl`,
      `addToQueue(seed, 0)` queues "https://a.com/", `getNext` puts it in
      flight, and `markAsProcessed` of that entry records "https://a.com"
      as visited and leaves "https://a.com/" in flight. */
  lemma WwwSeedStaysInFlight(parse: Parser)
    requires parse("https://www.a.com/", None) == Some(Https("www.a.com", "/"))
    requires parse("https://www.a.com/", Some(Https("www.a.com", "/"))) == Some(Https("www.a.com", "/"))
    requires parse("https://a.com/", Some(Https("www.a.com", "/"))) == Some(Https("a.com", "/"))
    ensures var t := AddToQueue(parse, SetBaseUrl(parse, CreateDefault(), "https://www.a.com/"), "https://www.a.com/", 0);
      && GetNext(t).0 == Some(Entry("https://a.com/", 0))
      && "https://a.com/" in MarkAsProcessed(parse, GetNext(t).1, "https://a.com/").processing
      && "https://a.com" in MarkAsProcessed(parse, GetNext(t).1, "https://a.com/").visitedUrls
  {
    WwwSeedQueued(parse);
    WwwSeedEntryNormal(parse);
  }

  /** No denylisted extension ends "/about". */
  lemma AboutHasNoDeniedExtension()
    ensures !HasDeniedExtension("/about")
  {
    assert Lower("/about") == "/about";
    forall i | 0 <= i < |Denylist|
      ensures !EndsWith("/about", "." + Denylist[i])
    {
      var ext := "." + Denylist[i];
      if |ext| <= 6 {
        assert ext[0] == '.';
        assert "/about"[6 - |ext|] != '.';
      }
    }
  }

  /** "/logo.png" ends in ".png". */
  lemma LogoHasDeniedExtension()
    ensures HasDeniedExtension("/logo.png")
  {
    assert Lower("/logo.png") == "/logo.png";
    assert "/logo.png"[5..] == "." + Denylist[2];
  }

  /** The example page's parser results, for the base
      "https://example.com/". */
  predicate ExampleParses(parse: Parser) {
    && parse("https://example.com/", None) == Some(Https("example.com", "/"))
    && parse("https://example.com/about", Some(Https("example.com", "/")))
       == Some(Https("example.com", "/about"))
    && parse("https://cdn.example.com/logo.png", Some(Https("example.com", "/")))
       == Some(Https("cdn.example.com", "/logo.png"))
  }

  lemma AboutSpelling()
    ensures "https://" + "example.com" + "/about" == "https://example.com/about"
    ensures "/about"[|"/about"| - 1] != '/'
  {
  }

  lemma LogoSpelling()
    ensures "https://" + "cdn.example.com" + "/logo.png" == "https://cdn.example.com/logo.png"
    ensures "/logo.png"[|"/logo.png"| - 1] != '/'
  {
  }

  lemma ExampleAboutNormal(parse: Parser)
    requires parse("https://example.com/", None) == Some(Https("example.com", "/"))
    requires parse("https://example.com/about", Some(Https("example.com", "/")))
       == Some(Https("example.com", "/about"))
    ensures Normalize(parse, "https://example.com/", "https://example.com/about") == "https://example.com/about"
  {
    AboutSpelling();
    NoWwwPrefix("example.com");
    PlainLinkKeepsSpelling(parse, "https://example.com/", "https://example.com/about", Https("example.com", "/"),
      "example.com", "/about");
  }

  lemma ExampleAboutValid(parse: Parser)
    requires ExampleParses(parse)
    ensures IsValidUrl(parse, "https://example.com/", "example.com", "https://example.com/about")
  {
    Parsed(parse, "https://example.com/", "https://example.com/about", Https("example.com", "/"),
      Https("example.com", "/about"), "example.com");
    AboutHasNoDeniedExtension();
  }

  /** The same-site link keeps its spelling and is valid. */
  lemma ExampleAbout(parse: Parser)
    requires ExampleParses(parse)
    ensures Normalize(parse, "https://example.com/", "https://example.com/about") == "https://example.com/about"
    ensures IsValidUrl(parse, "https://example.com/", "example.com", "https://example.com/about")
  {
    ExampleAboutNormal(parse);
    ExampleAboutValid(parse);
  }

  lemma ExampleLogoNormal(parse: Parser)
    requires parse("https://example.com/", None) == Some(Https("example.com", "/"))
    requires parse("https://cdn.example.com/logo.png", Some(Https("example.com", "/")))
       == Some(Https("cdn.example.com", "/logo.png"))
    ensures Normalize(parse, "https://example.com/", "https://cdn.example.com/logo.png") == "https://cdn.example.com/logo.png"
  {
    LogoSpelling();
    NoWwwPrefix("cdn.example.com");
    PlainLinkKeepsSpelling(parse, "https://example.com/", "https://cdn.example.com/logo.png", Https("example.com", "/"),
      "cdn.example.com", "/logo.png");
  }

  lemma ExampleLogoRejected(parse: Parser)
    requires ExampleParses(parse)
    ensures !IsValidUrl(parse, "https://example.com/", "example.com", "https://cdn.example.com/logo.png")
  {
    Parsed(parse, "https://example.com/", "https://cdn.example.com/logo.png", Https("example.com", "/"),
      Https("cdn.example.com", "/logo.png"), "example.com");
    LogoHasDeniedExtension();
  }

  /** The image on the CDN host keeps its spelling and is rejected. */
  lemma ExampleLogo(parse: Parser)
    requires ExampleParses(parse)
    ensures Normalize(parse, "https://example.com/", "https://cdn.example.com/logo.png") == "https://cdn.example.com/logo.png"
    ensures !IsValidUrl(parse, "https://example.com/", "example.com", "https://cdn.example.com/logo.png")
  {
    ExampleLogoNormal(parse);
    ExampleLogoRejected(parse);
  }

  /** Of the two links of the example page only the first is kept. */
  lemma ExampleLinks(parse: Parser, s: CrawlerQueue)
    requires ExampleParses(parse)
    requires s.baseUrl == "https://example.com/" && s.domain == "example.com"
    ensures ValidLinks(parse, s, ["https://example.com/about", "https://cdn.example.com/logo.png"])
      == ["https://example.com/about"]
  {
    ExampleAbout(parse);
    ExampleLogo(parse);
    var links := ["https://example.com/about", "https://cdn.example.com/logo.png"];
    assert links[1..] == ["https://cdn.example.com/logo.png"];
    assert links[1..][1..] == [];
  }

  /** Seed "https://example.com/" with `maxDepth` 1 and a page linking to
      "https://example.com/about" and "https://cdn.example.com/logo.png":
      feeding the links queues only the first, at depth 1. */
  lemma SameSiteLinkOnly(parse: Parser)
    requires ExampleParses(parse)
    ensures var s := SetBaseUrl(parse, Create(DefaultMaxConcurrent, 1), "https://example.com/");
      FeedLinks(parse, s, ["https://example.com/about", "https://cdn.example.com/logo.png"], 0).queue
        == [Entry("https://example.com/about", 1)]
  {
    var base := "https://example.com/";
    var about := "https://example.com/about";
    var s := SetBaseUrl(parse, Create(DefaultMaxConcurrent, 1), base);
    assert s.baseUrl == base && s.domain == "example.com";
    ExampleLinks(parse, s);
    ExampleAbout(parse);
    var r1 := AddToQueue(parse, s, about, 1);
    assert Admits(s, about, 1);
    assert AddAll(parse, s, [about], 1) == AddAll(parse, r1, [], 1);
  }
}

=== FILE: strings.dfy ===
/** String helpers matching the JavaScript `String` methods the crawler uses:
    `startsWith`, `endsWith`, `slice(0, -1)` and the ASCII case folding of a
    regular expression's `i` flag. */
module Strings {

  predicate StartsWith(s: string, prefix: string) {
    |prefix| <= |s| && s[..|prefix|] == prefix
  }

  predicate EndsWith(s: string, suffix: string) {
    |suffix| <= |s| && s[|s| - |suffix|..] == suffix
  }

  /** `s.slice(0, -1)` on a non-empty string. */
  function DropLast(s: string): (r: string)
    requires |s| > 0
    ensures r + [s[|s| - 1]] == s
  {
    s[..|s| - 1]
  }

  /** `s` without its trailing U+0020 SPACE characters. */
  function TrimTrailingSpaces(s: string): (r: string)
    ensures r <= s
    ensures forall i :: |r| <= i < |s| ==> s[i] == ' '
    ensures r == [] || r[|r| - 1] != ' '
    decreases |s|
  {
    if |s| > 0 && s[|s| - 1] == ' ' then TrimTrailingSpaces(s[..|s| - 1]) else s
  }

  /** Case folding of a non-unicode `i` regular expression restricted to what
      can match ASCII letters: a non-ASCII character never folds onto an
      ASCII one, so folding ASCII upper case is all a lower-case ASCII
      pattern can observe. */
  function LowerChar(c: char): char {
    if 'A' <= c <= 'Z' then (c as int + 32) as char else c
  }

  function Lower(s: string): (r: string)
    ensures |r| == |s|
  {
    seq(|s|, i requires 0 <= i < |s| => LowerChar(s[i]))
  }
}

=== FILE: url.dfy ===
/** The slice of the WHATWG URL Standard the crawler relies on: a parsed URL
    record, its `href` (section 4.5, URL serializing), and, from the `URL`
    class of section 6.1, the `hostname` and `pathname` getters, the `hash`
    and `hostname` setters, and the `new URL(url, base)` constructor. The
    basic URL parser itself (section 4.4) stays abstract: every operation
    receives it as a `Parser` value. */
module WhatwgUrl {
  import opened Wrappers
  import opened Strings

  /** A parsed URL. `path` holds the already serialised path (what the
      `pathname` getter returns), `port` the serialised port digits. */
  datatype Url = Url(
    scheme: string,
    username: string,
    password: string,
    host: Option<string>,
    port: Option<string>,
    path: string,
    query: Option<string>,
    fragment: Option<string>)

  /** The basic URL parser: an input string and an optional base URL give a
      URL, or `None` where the standard returns failure. */
  type Parser = (string, Option<Url>) -> Option<Url>

  predicate IsSpecial(scheme: string) {
    scheme in {"ftp", "file", "http", "https", "ws", "wss"}
  }

  /** `new URL(input)` when `base` is `None`, `new URL(input, base)`
      otherwise. The base string is parsed first, and a base that does not
      parse makes the constructor throw whatever the input is. */
  function NewUrl(parse: Parser, input: string, base: Option<string>): (r: Option<Url>)
    ensures base.Some? && parse(base.value, None).None? ==> r.None?
    ensures base.None? ==> r == parse(input, None)
  {
    match base
    case None => parse(input, None)
    case Some(b) =>
      match parse(b, None)
      case None => None
      case Some(baseUrl) => parse(input, Some(baseUrl))
  }

  /** The `hostname` getter: the serialised host, or "" when there is none.
      It is the text `href` shows between the credentials and the port. */
  function Hostname(u: Url): (r: string)
    ensures u.host.None? ==> r == ""
    ensures u.host.Some? ==> Href(u) == BeforeHost(u) + r + AfterHost(u)
  {
    u.host.GetOr("")
  }

  /** The `pathname` getter: the serialised path, which `href` shows after
      the host and port, behind a "/." when it would otherwise read as an
      authority. */
  function Pathname(u: Url): (r: string)
    ensures SerializedPath(u) == r || SerializedPath(u) == "/." + r
  {
    u.path
  }

  /** A path that is a single opaque string rather than a list of segments:
      only a URL without a host has one, and its serialisation does not
      start with "/". */
  predicate HasOpaquePath(u: Url) {
    u.host.None? && !StartsWith(u.path, "/")
  }

  function Userinfo(u: Url): string {
    if u.username == "" && u.password == "" then ""
    else u.username + (if u.password == "" then "" else ":" + u.password) + "@"
  }

  /** Everything the serializer writes in front of the host. */
  function BeforeHost(u: Url): string {
    u.scheme + "://" + Userinfo(u)
  }

  function PortPart(u: Url): string {
    match u.port
    case None => ""
    case Some(p) => ":" + p
  }

  /** The path as serialised; a host-less URL whose path starts with an
      empty segment gets a "/." in front so that it does not read back as
      an authority. */
  function SerializedPath(u: Url): string {
    if u.host.None? && StartsWith(u.path, "//") then "/." + u.path else u.path
  }

  function QueryPart(u: Url): string {
    match u.query
    case None => ""
    case Some(q) => "?" + q
  }

  function FragmentPart(u: Url): string {
    match u.fragment
    case None => ""
    case Some(f) => "#" + f
  }

  /** Everything the serializer writes after the host. */
  function AfterHost(u: Url): string {
    PortPart(u) + SerializedPath(u) + QueryPart(u) + FragmentPart(u)
  }

  /** The `href` getter: the URL serializer. It always starts with the
      scheme and a colon, so it is never empty. */
  function Href(u: Url): (r: string)
    ensures |r| > |u.scheme| && r[|u.scheme|] == ':'
    ensures r[..|u.scheme| + 1] == u.scheme + ":"
  {
    match u.host
    case None => u.scheme + ":" + SerializedPath(u) + QueryPart(u) + FragmentPart(u)
    case Some(h) => BeforeHost(u) + h + AfterHost(u)
  }

  /** A URL with a host serialises as the part before the host, the host,
      and the part after it. */
  lemma HrefAroundHost(u: Url)
    requires u.host.Some?
    ensures Href(u) == BeforeHost(u) + Hostname(u) + AfterHost(u)
  {
  }

  /** The `hash` setter given "": the fragment becomes null, and then a URL
      with an opaque path and no query loses the trailing spaces of its
      path. Nothing else changes. */
  function ClearHash(u: Url): (r: Url)
    ensures r.fragment.None? && FragmentPart(r) == ""
    ensures r.(fragment := u.fragment, path := u.path) == u
    ensures r.path <= u.path && forall i :: |r.path| <= i < |u.path| ==> u.path[i] == ' '
    ensures !HasOpaquePath(u) || u.query.Some? ==> r.(fragment := u.fragment) == u
    ensures HasOpaquePath(u) && u.query.None? ==> r.path == [] || r.path[|r.path| - 1] != ' '
  {
    var cleared := u.(fragment := None);
    if HasOpaquePath(u) && u.query.None? then cleared.(path := TrimTrailingSpaces(u.path))
    else cleared
  }

  /** The host the `hostname` setter stores for a value it accepts: the file
      host state turns "localhost" into the empty host. */
  function SetterHost(scheme: string, h: string): string {
    if scheme == "file" && h == "localhost" then "" else h
  }

  /** The `hostname` setter, for a URL that has a host and a value taken
      from the end of that already parsed host, after a dot. Host parsing
      gives such a value back unchanged, so what is stored is `SetterHost`
      of it. Only the empty value can fail: a special scheme other than
      `file`, or a URL with credentials or a port, keeps its host. Nothing
      but the host ever changes. */
  function SetHostname(u: Url, h: string): (r: Url)
    requires u.host.Some?
    ensures r.host.Some? && r.(host := u.host) == u
    ensures r == u || Hostname(r) == SetterHost(u.scheme, h)
    ensures h != "" || u.scheme == "file" ==> Hostname(r) == SetterHost(u.scheme, h)
    ensures u.scheme == "file" && h == "localhost" ==> Hostname(r) == ""
  {
    if h == "" && u.scheme != "file"
       && (IsSpecial(u.scheme) || u.port.Some? || u.username != "" || u.password != "")
    then u
    else u.(host := Some(SetterHost(u.scheme, h)))
  }

  /** Changing only the host of a URL changes only the host in its `href`. */
  lemma HrefAfterSetHostname(u: Url, h: string)
    requires u.host.Some?
    ensures Href(SetHostname(u, h)) == BeforeHost(u) + Hostname(SetHostname(u, h)) + AfterHost(u)
  {
    var r := SetHostname(u, h);
    HrefAroundHost(r);
    assert BeforeHost(r) == BeforeHost(u);
    assert AfterHost(r) == AfterHost(u);
  }
}

=== FILE: wrappers.dfy ===
/** Wrappers used across the model: `Option` for a value that may be absent
    (a URL that does not parse, a `null` return), `Result` for an operation
    that may throw. */
module Wrappers {

  datatype Option<+T> = None | Some(value: T) {

    /** Returns the value in `Some`, or `default` for `None`. */
    function GetOr(default: T): T {
      match this
      case Some(v) => v
      case None => default
    }
  }

  datatype Result<+R, +E> = Success(value: R) | Failure(error: E)
}
